=== FILE: README.md ===
# Wallet risk scorer — a Dafny model of the scoring core

The scorer gives each wallet address in a batch a risk score from 0 to 1000,
based on the wallet's on-chain transaction history. This project models the two
steps of `scorer.py` that do the computing and proves properties about them:

- **Feature extraction** (`calculate_features`), module `FeatureExtraction` in
  `feature_extraction.dfy`. One wallet's transaction list becomes a
  `FeatureRecord` with six features:
  - `wallet_age_days`: whole days from the earliest transaction to "now";
  - `tx_count`: the number of transactions;
  - `avg_eth_sent`: the mean value, in ether, of the wallet's sent transactions;
  - `unique_recipients`: the number of distinct recipients of those sent transactions;
  - two synthetic flags taken from the last two characters of the address.

  These steps are pure, so they are modelled as functions, with lemmas about them.
- **Batch scoring** (`calculate_risk_scores`), module `RiskScoring` in
  `risk_scoring.dfy`. It works in three steps:
  - Each of the six weighted feature columns is min/max-normalised over the whole
    batch. A column whose values are all equal becomes all 0. In the source this
    step is a loop that overwrites a copied table column by column, so it is
    modelled as the method `NormalizeFeatures`, and its loop invariant says which
    columns are done.
  - The normalised values are summed with the fixed signed weights −0.1, 0.15,
    0.2, 0.25, 0.5 and 0.4.
  - The sums are rescaled by the batch's own minimum and maximum to `[0, 1000]`,
    then truncated to integers.

  `CalculateRiskScores` runs these three steps, and `RiskScores` is the function
  that specifies the method.

Values are exact:
- A transaction's value is an integer number of wei, and one ether is
  10^18 wei, converted to an exact `real`.
- Weights and normalised values are `real`.
- Timestamps are integer epoch seconds.
- "Now" is a parameter in epoch seconds. Wallet age is counted in whole days,
  so dropping the fractional part of the current time never changes the result.

The model follows the code as written, including these points:
- For an empty transaction list, the code returns the all-zero record. Both
  synthetic flags are 0 in it too; they are not computed from the address.
- Senders are compared without regard to case, but recipients are counted
  case-sensitively.
- A non-empty list whose address is shorter than two characters makes the code
  index before the start of the string. The model returns
  `Err(AddressIndexOutOfRange)` in that case.

## Model

| member | source | states |
|---|---|---|
| `FeatureExtraction.ExtractFeatures` | scorer.py:41-87 | an empty list gives the all-zero record with the address kept; the result is an error exactly when the list is non-empty and the address is shorter than two characters; otherwise the address is kept, `tx_count` is the number of transactions (sent and received) and both flags are 0 or 1 |
| `FeatureExtraction.ZeroRecord` | scorer.py:43-50 | the record for no transactions keeps the address and has every feature 0, both flags included |
| `FeatureExtraction.Lower` | scorer.py:66 | lower-casing keeps the length, turns each upper-case ASCII letter into the same letter in lower case and leaves every other character unchanged |
| `FeatureExtraction.IsSentCharwise` | scorer.py:66 | a transaction counts as sent exactly when its sender has the address's length and agrees with it at every position once both characters are lower-cased |
| `FeatureExtraction.SentBy` | scorer.py:66 | the sent transactions keep their duplicates: each transaction occurs in the result as often as in the input when its sender equals the address under lower-case comparison, and not at all otherwise; no more are kept than were given |
| `FeatureExtraction.EtherOf` | scorer.py:55 | the ether amount times 10^18 gives back the wei value |
| `FeatureExtraction.SumEtherAtLeast` | scorer.py:55-67 | when every value is at least e ether, the total ether is at least e times the count |
| `FeatureExtraction.SumEtherAtMost` | scorer.py:55-67 | when every value is at most e ether, the total ether is at most e times the count |
| `FeatureExtraction.MeanEther` | scorer.py:67 | 0 for no transactions; otherwise the mean times the count equals the total ether (values divided by 10^18) |
| `FeatureExtraction.MeanEtherBounds` | scorer.py:55-67 | the mean lies between the smallest and the largest value, converted to ether |
| `FeatureExtraction.MeanEtherNonNegative` | scorer.py:67 | with no negative values, the average sent is not negative |
| `FeatureExtraction.Recipients` | scorer.py:70 | the set holds the recipient of every transaction and nothing that is not the recipient of one |
| `FeatureExtraction.RecipientsAtMostTransactions` | scorer.py:70 | the number of distinct recipients never exceeds the number of transactions, and is at least 1 when there is one |
| `FeatureExtraction.MinTimeStamp` | scorer.py:59 | the earliest timestamp: it belongs to some transaction and none is earlier |
| `FeatureExtraction.WalletAgeDays` | scorer.py:59-60 | the age is the whole number of days, rounded down, between the earliest transaction and now; it is not negative when no transaction lies after now |
| `FeatureExtraction.MockLiquidations` | scorer.py:76 | 0 or 1, and 1 exactly when the last character is '0', '1' or '2' |
| `FeatureExtraction.MockHighLtvBorrows` | scorer.py:77 | 0 or 1, and 1 exactly when the second-to-last character is 'a', 'b' or 'c' (case-sensitively) |
| `FeatureExtraction.ExtractedCountsConsistent` | scorer.py:63-70 | `unique_recipients` ≤ number of sent transactions ≤ `tx_count`; no recipients exactly when nothing was sent; nothing sent means `avg_eth_sent` is 0 |
| `FeatureExtraction.ExtractedAgeNonNegative` | scorer.py:56-60 | `wallet_age_days` ≥ 0 when no timestamp is after now |
| `FeatureExtraction.ExtractedAverageInRange` | scorer.py:55-67 | when no value is negative, 0 ≤ `avg_eth_sent` ≤ any upper bound of the values, in ether |
| `FeatureExtraction.MockFlagsDependOnAddressSuffixOnly` | scorer.py:76-86 | for non-empty histories the flags depend only on the last two characters of the address, not on the transactions or on now |
| `RiskScoring.Min` | scorer.py:107 | the column minimum occurs in the column and is ≤ every entry |
| `RiskScoring.Max` | scorer.py:108 | the column maximum occurs in the column and is ≥ every entry |
| `RiskScoring.MinMaxOfSameValues` | scorer.py:107-108 | minimum and maximum depend only on which values occur, not on their order |
| `RiskScoring.Weight` | scorer.py:94-101 | only the wallet-age weight is negative, and every weight lies in [−0.1, 0.5] |
| `RiskScoring.NormalizedValue` | scorer.py:109-112 | 0 for a column without range; a value between the column's minimum and maximum maps into [0, 1] |
| `RiskScoring.NormalizedValueMonotone` | scorer.py:110 | a larger value never normalises to a smaller one |
| `RiskScoring.NormalizedColumn` | scorer.py:106-112 | one normalised value per entry; its range, order, end points and constant case are stated by the lemmas below |
| `RiskScoring.NormalizedColumnInUnitRange` | scorer.py:109-112 | every normalised value lies in [0, 1] |
| `RiskScoring.NormalizedColumnMonotone` | scorer.py:110 | normalisation keeps the order of values |
| `RiskScoring.NormalizedColumnMinimumIsZero` | scorer.py:107-110 | a smallest value of the column maps to exactly 0 |
| `RiskScoring.NormalizedColumnMaximumIsOne` | scorer.py:107-110 | a largest value maps to exactly 1 when some value is smaller |
| `RiskScoring.ConstantColumnNormalizesToZero` | scorer.py:109-112 | a column with all values equal normalises to all 0 |
| `RiskScoring.NormalizeColumn` | scorer.py:107-112 | one pass of the loop body (range test, then rescaled values or all 0) yields exactly the normalised column |
| `RiskScoring.NormalizeFeatures` | scorer.py:105-112 | the column-by-column loop yields exactly the normalised table, and every entry lies in [0, 1] |
| `RiskScoring.WeightTotals` | scorer.py:94-101 | the negative weights sum to −0.1 and the positive weights to 1.5 |
| `RiskScoring.WeightedSumBounds` | scorer.py:115 | for values in [0, 1] the weighted sum lies between the sum of the negative weights and the sum of the positive weights |
| `RiskScoring.RawScores` | scorer.py:115 | one raw score per wallet; its bounds are stated by `RawScoresBounds` |
| `RiskScoring.RawScoresBounds` | scorer.py:94-115 | every raw score (weighted sum of the normalised row) lies in [−0.1, 1.5] |
| `RiskScoring.Truncate` | scorer.py:122 | conversion to an integer truncates toward zero |
| `RiskScoring.Rescale` | scorer.py:118-122 | one final score per raw score; its range, order, end points and constant case are stated by the lemmas below |
| `RiskScoring.ScaledScoreWithin` | scorer.py:120-122 | a raw score between the minimum and the maximum scales into [0, 1000] |
| `RiskScoring.ScaledScoreMonotone` | scorer.py:120-122 | scaling keeps the order of raw scores |
| `RiskScoring.ScaledScoreAtMax` | scorer.py:118-122 | the maximum raw score scales to exactly 1000 |
| `RiskScoring.RescaleInRange` | scorer.py:118-122 | every final score lies in [0, 1000] |
| `RiskScoring.RescaleMonotone` | scorer.py:120-122 | a higher raw score never gets a lower final score |
| `RiskScoring.RescaleMinimumIsZero` | scorer.py:118-122 | a wallet with the lowest raw score gets exactly 0 |
| `RiskScoring.RescaleMaximumIsThousand` | scorer.py:118-122 | a wallet with the highest raw score gets exactly 1000 when some raw score is lower |
| `RiskScoring.ConstantRawScoresRescaleToZero` | scorer.py:118-122 | when all raw scores are equal, every final score is the constant 0 |
| `RiskScoring.RescaleAsWritten` | scorer.py:118-122 | the unguarded rescale gives no scores for an empty batch, fails for a batch of one, and otherwise gives one score per raw score |
| `RiskScoring.RescaleAsWrittenAgrees` | scorer.py:118-122 | the unguarded rescale fails exactly for a non-empty batch whose raw scores are all equal; otherwise it gives the guarded scores |
| `RiskScoring.SingleWalletBatchFailsAsWritten` | scorer.py:118-122 | a one-wallet batch makes the unguarded rescale fail, whatever the wallet |
| `RiskScoring.RiskScores` | scorer.py:90-122 | one score per record, in batch order, each in [0, 1000] |
| `RiskScoring.CalculateRiskScores` | scorer.py:90-122 | normalise, weight, sum and rescale give the specified scores: one per record, each in [0, 1000] |
| `RiskScoring.SingleWalletScoresZero` | scorer.py:106-122 | a one-wallet batch normalises every column to 0 and scores 0 |
| `RiskScoring.ScoresIndependentOfBatchOrder` | scorer.py:106-122 | in two batches holding the same records in any order, the same record gets the same score |
| `RiskScoring.TwoWalletTable` | scorer.py:105-112 | in a batch of a wallet without activity and any wallet positive on every feature, every column normalises to 0 for the first and 1 for the second |
| `RiskScoring.TwoWalletRawScores` | scorer.py:94-115 | in such a batch the raw scores are 0 and 1.4, the total of all weights |
| `RiskScoring.TwoWalletExample` | scorer.py:94-122 | a wallet without activity scored against any wallet that is positive on every feature scores exactly 0, and the other exactly 1000 |
| `RiskScoring.ActiveWalletExample` | scorer.py:94-122 | one instance: a wallet 100 days old with 50 transactions, 2 ether sent on average, 10 recipients and both flags set scores 1000 against a wallet without activity, which scores 0 |

## Left out

- `get_transactions` (scorer.py:15-38) makes an HTTP request and handles the JSON status. In the model the transaction list is a parameter, and it may be empty.
- Loading the API key and the endpoint (scorer.py:9-12) is process configuration. It is not modelled.
- The `__main__` block (scorer.py:126-160) is left out: it reads and writes CSV files, prints, sleeps between requests, builds the DataFrame and calls `fillna`. The batch is a sequence of records, and the result is a sequence of scores in the same order.
- Floating point is not modelled. Values are divided by 1e18 as doubles in the source, the weights are binary fractions, and the rescale is done in double precision. The model uses exact reals, so rounding (for example a top score of 999 instead of 1000) is not captured.
- The wall clock is not modelled: `datetime.now()` and `pd.to_datetime` become a `now` parameter in epoch seconds. The source subtracts UTC timestamps from the local time, and that time-zone offset is not modelled.
- Lower-casing covers ASCII letters only. The source uses Unicode `str.lower`.
- Malformed transactions are not modelled: every `Transaction` has all four fields, and its value is an integer. In the source, a key missing from only some transactions becomes NaN. `astype(float)` keeps NaN, and `min`, `mean` and `nunique` skip it. A NaN sender never equals the address, so that transaction is not sent. Only a value string that does not parse makes `astype(float)` raise, and a key missing from every transaction raises `KeyError` where its column is first read: `df['value']` (scorer.py:55), `df['timeStamp']` (scorer.py:56), `df['from']` (scorer.py:66) or `sent_tx['to']` (scorer.py:70, even when nothing was sent).
- WalletAgeDays: accepts any integer timestamp. In the source, `pd.to_datetime(..., unit='s')` (scorer.py:56) raises `OutOfBoundsDatetime` for a timestamp outside the nanosecond datetime range, about ±9.2·10^9 seconds around 1970 (the years 1677 to 2262). The model returns an age for such a timestamp.
- Pandas details are stated as their definitions over sequences: index alignment by wallet address, and `nunique` ignoring missing recipients.

## Findings

| source | as written | input that shows it | evidently intended | confidence | as-written member | corrected member |
|---|---|---|---|---|---|---|
| scorer.py:118-122 | the rescale divides by `max_score - min_score` without a guard; for equal raw scores this is 0/0, so every value is NaN, and the conversion to `int` refuses non-finite values | a batch of a single wallet, or any batch whose raw scores are all equal | a defined constant score (0) for every wallet, as the per-feature step (scorer.py:109-112) already does for constant columns | medium, not executed | `RiskScoring.SingleWalletBatchFailsAsWritten` | `RiskScoring.ConstantRawScoresRescaleToZero` |

=== FILE: feature_extraction.dfy ===
/**
 * Per-wallet feature extraction (scorer.py, calculate_features).
 *
 * One wallet's transaction list becomes a fixed record of six numeric
 * features. Values are exact: a transfer's value is an integer number of wei
 * and ether is wei / 10^18 as a real; timestamps and "now" are integer epoch
 * seconds, and "now" is a parameter instead of the wall clock.
 */
module FeatureExtraction {

  /** Wei in one ether: every value is divided by 1e18. */
  const WeiPerEther: int := 1_000_000_000_000_000_000

  /** Seconds in one day, the unit of wallet age. */
  const SecondsPerDay: int := 86400

  /** One entry of a wallet's normal transaction list. */
  datatype Transaction = Transaction(sender: string, recipient: string, valueWei: int, timeStamp: int)

  /**
   * The features of one wallet. The two mock flags are synthetic
   * placeholders computed from the address string alone; they carry no
   * information about the wallet's activity.
   */
  datatype FeatureRecord = FeatureRecord(
    walletAddress: string,
    walletAgeDays: int,
    txCount: nat,
    avgEthSent: real,
    uniqueRecipients: nat,
    mockLiquidations: int,
    mockHighLtvBorrows: int)

  /** Extraction fails only where the source indexes past the start of a short address. */
  datatype ExtractError = AddressIndexOutOfRange

  datatype Result<T> = Ok(value: T) | Err(error: ExtractError)

  /** The record returned for a wallet without transactions. */
  function ZeroRecord(address: string): (r: FeatureRecord)
    ensures r.walletAddress == address
    ensures r.walletAgeDays == 0 && r.txCount == 0 && r.avgEthSent == 0.0 && r.uniqueRecipients == 0
    ensures r.mockLiquidations == 0 && r.mockHighLtvBorrows == 0
  {
    FeatureRecord(address, 0, 0, 0.0, 0, 0, 0)
  }

  // ---------------------------------------------------------------------
  // Sent transactions
  // ---------------------------------------------------------------------

  /** Lower-casing of one character (ASCII letters only). */
  function LowerChar(c: char): char
  {
    if 'A' <= c <= 'Z' then (c as int + 32) as char else c
  }

  /** Lower-casing of a string, character by character. */
  function Lower(s: string): (r: string)
    ensures |r| == |s|
    ensures forall i :: 0 <= i < |r| ==> !('A' <= r[i] <= 'Z')
    ensures forall i :: 0 <= i < |s| && !('A' <= s[i] <= 'Z') ==> r[i] == s[i]
    ensures forall i :: 0 <= i < |s| && 'A' <= s[i] <= 'Z' ==>
      r[i] == "abcdefghijklmnopqrstuvwxyz"[s[i] as int - 'A' as int]
  {
    seq(|s|, i requires 0 <= i < |s| => LowerChar(s[i]))
  }

  /** A transaction is sent by the wallet when the sender matches the address ignoring case. */
  predicate IsSent(t: Transaction, address: string)
  {
    Lower(t.sender) == Lower(address)
  }

  /**
   * Sender matching ignores case character by character: the two strings
   * have the same length and agree at every position once lower-cased.
   */
  lemma IsSentCharwise(t: Transaction, address: string)
    ensures IsSent(t, address) <==>
      |t.sender| == |address| &&
      forall i :: 0 <= i < |address| ==> LowerChar(t.sender[i]) == LowerChar(address[i])
  {
    if |t.sender| == |address| &&
       forall i :: 0 <= i < |address| ==> LowerChar(t.sender[i]) == LowerChar(address[i])
    {
      assert forall i :: 0 <= i < |address| ==> Lower(t.sender)[i] == Lower(address)[i];
      assert Lower(t.sender) == Lower(address);
    }
    if IsSent(t, address) {
      forall i | 0 <= i < |address| ensures LowerChar(t.sender[i]) == LowerChar(address[i]) {
        assert Lower(t.sender)[i] == Lower(address)[i];
      }
    }
  }

  /**
   * The sent transactions, in input order: every sent transaction is kept
   * as often as it occurs, every other one is dropped.
   */
  function SentBy(txs: seq<Transaction>, address: string): (sent: seq<Transaction>)
    ensures |sent| <= |txs|
    ensures forall t :: t in sent <==> t in txs && IsSent(t, address)
    ensures forall t :: multiset(sent)[t] == if IsSent(t, address) then multiset(txs)[t] else 0
  {
    if |txs| == 0 then []
    else
      var rest := SentBy(txs[1..], address);
      assert forall t :: t in txs <==> t == txs[0] || t in txs[1..];
      assert txs == [txs[0]] + txs[1..];
      assert multiset(txs) == multiset{txs[0]} + multiset(txs[1..]);
      if IsSent(txs[0], address) then [txs[0]] + rest else rest
  }

  // ---------------------------------------------------------------------
  // Average ether sent
  // ---------------------------------------------------------------------

  /** Wei as an exact amount of ether. */
  function EtherOf(wei: int): (e: real)
    ensures e * WeiPerEther as real == wei as real
  {
    wei as real / WeiPerEther as real
  }

  /** The total ether moved by a list of transactions. */
  function SumEther(txs: seq<Transaction>): real
  {
    if |txs| == 0 then 0.0 else EtherOf(txs[0].valueWei) + SumEther(txs[1..])
  }

  /** The arithmetic mean of the ether values, and 0 for an empty list. */
  function MeanEther(txs: seq<Transaction>): (avg: real)
    ensures |txs| == 0 ==> avg == 0.0
    ensures |txs| as real * avg == SumEther(txs)
  {
    if |txs| == 0 then 0.0 else SumEther(txs) / |txs| as real
  }

  /** e added n times. */
  function Times(n: nat, e: real): real
  {
    if n == 0 then 0.0 else e + Times(n - 1, e)
  }

  lemma {:induction false} TimesIsProduct(n: nat, e: real)
    ensures Times(n, e) == n as real * e
  {
    if n > 0 {
      TimesIsProduct(n - 1, e);
      assert n as real * e == (n - 1) as real * e + e;
    }
  }

  /** A total of at least n * lo has a mean of at least lo. */
  lemma MeanAtLeast(sum: real, n: nat, lo: real)
    requires n > 0 && Times(n, lo) <= sum
    ensures lo <= sum / n as real
  {
    TimesIsProduct(n, lo);
    assert (n as real * lo) / n as real <= sum / n as real;
  }

  /** A total of at most n * hi has a mean of at most hi. */
  lemma MeanAtMost(sum: real, n: nat, hi: real)
    requires n > 0 && sum <= Times(n, hi)
    ensures sum / n as real <= hi
  {
    TimesIsProduct(n, hi);
    assert sum / n as real <= (n as real * hi) / n as real;
  }

  /** A larger number of wei is a larger amount of ether. */
  lemma EtherOfMonotone(v: int, w: int)
    requires v <= w
    ensures EtherOf(v) <= EtherOf(w)
  {
  }

  lemma {:induction false} SumEtherAtLeast(txs: seq<Transaction>, e: real)
    requires forall t :: t in txs ==> e <= EtherOf(t.valueWei)
    ensures Times(|txs|, e) <= SumEther(txs)
  {
    if |txs| > 0 {
      assert txs[0] in txs;
      assert forall t :: t in txs[1..] ==> t in txs;
      SumEtherAtLeast(txs[1..], e);
    }
  }

  lemma {:induction false} SumEtherAtMost(txs: seq<Transaction>, e: real)
    requires forall t :: t in txs ==> EtherOf(t.valueWei) <= e
    ensures SumEther(txs) <= Times(|txs|, e)
  {
    if |txs| > 0 {
      assert txs[0] in txs;
      assert forall t :: t in txs[1..] ==> t in txs;
      SumEtherAtMost(txs[1..], e);
    }
  }

  /** The mean lies between the smallest and the largest value, in ether. */
  lemma MeanEtherBounds(txs: seq<Transaction>, lo: int, hi: int)
    requires |txs| > 0
    requires forall t :: t in txs ==> lo <= t.valueWei <= hi
    ensures EtherOf(lo) <= MeanEther(txs) <= EtherOf(hi)
  {
    forall t | t in txs ensures EtherOf(lo) <= EtherOf(t.valueWei) <= EtherOf(hi) {
      EtherOfMonotone(lo, t.valueWei);
      EtherOfMonotone(t.valueWei, hi);
    }
    SumEtherAtLeast(txs, EtherOf(lo));
    SumEtherAtMost(txs, EtherOf(hi));
    MeanAtLeast(SumEther(txs), |txs|, EtherOf(lo));
    MeanAtMost(SumEther(txs), |txs|, EtherOf(hi));
  }

  /** With no negative values the mean is never negative (and it is 0 for no values). */
  lemma MeanEtherNonNegative(txs: seq<Transaction>)
    requires forall t :: t in txs ==> t.valueWei >= 0
    ensures MeanEther(txs) >= 0.0
  {
    if |txs| > 0 {
      forall t | t in txs ensures 0.0 <= EtherOf(t.valueWei) {
        EtherOfMonotone(0, t.valueWei);
      }
      SumEtherAtLeast(txs, 0.0);
      MeanAtLeast(SumEther(txs), |txs|, 0.0);
    }
  }

  // ---------------------------------------------------------------------
  // Distinct recipients
  // ---------------------------------------------------------------------

  /** The distinct recipient strings, compared case-sensitively. */
  function Recipients(txs: seq<Transaction>): (rs: set<string>)
    ensures forall i :: 0 <= i < |txs| ==> txs[i].recipient in rs
    ensures forall x :: x in rs ==> exists i :: 0 <= i < |txs| && txs[i].recipient == x
  {
    set t | t in txs :: t.recipient
  }

  /** There are never more distinct recipients than transactions, and at least one if any. */
  lemma {:induction false} RecipientsAtMostTransactions(txs: seq<Transaction>)
    ensures |Recipients(txs)| <= |txs|
    ensures |txs| > 0 ==> |Recipients(txs)| >= 1
  {
    if |txs| > 0 {
      assert txs[0].recipient in Recipients(txs);
      RecipientsAtMostTransactions(txs[1..]);
      assert Recipients(txs) == {txs[0].recipient} + Recipients(txs[1..]) by {
        assert forall t :: t in txs <==> t == txs[0] || t in txs[1..];
      }
    }
  }

  // ---------------------------------------------------------------------
  // Wallet age
  // ---------------------------------------------------------------------

  /** The earliest timestamp of a non-empty list. */
  function MinTimeStamp(txs: seq<Transaction>): (m: int)
    requires |txs| > 0
    ensures exists i :: 0 <= i < |txs| && txs[i].timeStamp == m
    ensures forall t :: t in txs ==> m <= t.timeStamp
  {
    if |txs| == 1 then txs[0].timeStamp
    else
      var rest := MinTimeStamp(txs[1..]);
      assert forall t :: t in txs ==> t == txs[0] || t in txs[1..];
      if txs[0].timeStamp <= rest then txs[0].timeStamp else rest
  }

  /**
   * Whole days between the earliest transaction and now, rounded down
   * (as a timedelta's day count is, also for negative spans).
   */
  function WalletAgeDays(txs: seq<Transaction>, now: int): (days: int)
    requires |txs| > 0
    ensures days * SecondsPerDay <= now - MinTimeStamp(txs) < (days + 1) * SecondsPerDay
    ensures (forall t :: t in txs ==> t.timeStamp <= now) ==> days >= 0
  {
    (now - MinTimeStamp(txs)) / SecondsPerDay
  }

  // ---------------------------------------------------------------------
  // Synthetic flags
  // ---------------------------------------------------------------------

  /** Synthetic: 1 exactly when the address ends in '0', '1' or '2'. */
  function MockLiquidations(address: string): (flag: int)
    requires |address| >= 1
    ensures flag == 0 || flag == 1
    ensures flag == 1 <==> address[|address| - 1] in {'0', '1', '2'}
  {
    if address[|address| - 1] in "012" then 1 else 0
  }

  /** Synthetic: 1 exactly when the second-to-last character is 'a', 'b' or 'c' (lower case only). */
  function MockHighLtvBorrows(address: string): (flag: int)
    requires |address| >= 2
    ensures flag == 0 || flag == 1
    ensures flag == 1 <==> address[|address| - 2] in {'a', 'b', 'c'}
  {
    if address[|address| - 2] in "abc" then 1 else 0
  }

  // ---------------------------------------------------------------------
  // The feature record
  // ---------------------------------------------------------------------

  /**
   * The feature record of one wallet. An empty list gives the all-zero
   * record; a non-empty list with an address shorter than two characters
   * fails, because the flags index the address from its end.
   */
  function ExtractFeatures(txs: seq<Transaction>, address: string, now: int): (r: Result<FeatureRecord>)
    ensures |txs| == 0 ==> r == Ok(ZeroRecord(address))
    ensures r.Err? <==> |txs| > 0 && |address| < 2
    ensures r.Ok? ==> r.value.walletAddress == address && r.value.txCount == |txs|
    ensures r.Ok? ==> r.value.mockLiquidations in {0, 1} && r.value.mockHighLtvBorrows in {0, 1}
  {
    if |txs| == 0 then Ok(ZeroRecord(address))
    else if |address| < 2 then Err(AddressIndexOutOfRange)
    else
      var sent := SentBy(txs, address);
      Ok(FeatureRecord(
        address,
        WalletAgeDays(txs, now),
        |txs|,
        MeanEther(sent),
        |Recipients(sent)|,
        MockLiquidations(address),
        MockHighLtvBorrows(address)))
  }

  /**
   * The counting features are consistent with each other: distinct
   * recipients never outnumber sent transactions, which never outnumber all
   * transactions; no sent transaction means an average and a recipient
   * count of 0.
   */
  lemma ExtractedCountsConsistent(txs: seq<Transaction>, address: string, now: int)
    requires |txs| == 0 || |address| >= 2
    ensures var f := ExtractFeatures(txs, address, now).value;
      var sent := SentBy(txs, address);
      f.uniqueRecipients <= |sent| <= f.txCount &&
      (f.uniqueRecipients == 0 <==> |sent| == 0) &&
      (|sent| == 0 ==> f.avgEthSent == 0.0)
  {
    RecipientsAtMostTransactions(SentBy(txs, address));
  }

  /** The age is not negative when no transaction lies after now. */
  lemma ExtractedAgeNonNegative(txs: seq<Transaction>, address: string, now: int)
    requires |txs| == 0 || |address| >= 2
    requires forall t :: t in txs ==> t.timeStamp <= now
    ensures ExtractFeatures(txs, address, now).value.walletAgeDays >= 0
  {
  }

  /**
   * The average sent is not negative when no value is negative, and it
   * never exceeds an upper bound of the values.
   */
  lemma ExtractedAverageInRange(txs: seq<Transaction>, address: string, now: int, maxWei: int)
    requires |txs| == 0 || |address| >= 2
    requires 0 <= maxWei
    requires forall t :: t in txs ==> 0 <= t.valueWei <= maxWei
    ensures var f := ExtractFeatures(txs, address, now).value;
      0.0 <= f.avgEthSent <= EtherOf(maxWei)
  {
    var sent := SentBy(txs, address);
    if |sent| > 0 {
      MeanEtherBounds(sent, 0, maxWei);
    }
  }

  /**
   * The mock flags depend on the last two characters of the address and on
   * nothing else: not on the transactions, not on the clock.
   */
  lemma MockFlagsDependOnAddressSuffixOnly(
    txs1: seq<Transaction>, a1: string, now1: int,
    txs2: seq<Transaction>, a2: string, now2: int)
    requires |txs1| > 0 && |txs2| > 0 && |a1| >= 2 && |a2| >= 2
    requires a1[|a1| - 2..] == a2[|a2| - 2..]
    ensures ExtractFeatures(txs1, a1, now1).value.mockLiquidations
         == ExtractFeatures(txs2, a2, now2).value.mockLiquidations
    ensures ExtractFeatures(txs1, a1, now1).value.mockHighLtvBorrows
         == ExtractFeatures(txs2, a2, now2).value.mockHighLtvBorrows
  {
    assert a1[|a1| - 1] == a1[|a1| - 2..][1] == a2[|a2| - 1];
    assert a1[|a1| - 2] == a1[|a1| - 2..][0] == a2[|a2| - 2];
  }
}

=== FILE: risk_scoring.dfy ===
/**
 * Batch-relative risk scoring (scorer.py, calculate_risk_scores).
 *
 * Each weighted feature column is min/max-normalised over the whole batch
 * (a column with no spread becomes all 0), the normalised values are summed
 * with fixed signed weights, and the raw sums are rescaled by the batch's own
 * minimum and maximum to integers in [0, 1000]. Weights and intermediate
 * values are exact reals.
 */
module RiskScoring {
  import opened FeatureExtraction

  /** The weighted feature columns, in the order of the weight table. */
  datatype Feature = AgeDays | TxCount | EthSent | DistinctRecipients | Liquidations | HighLtvBorrows

  const WeightedFeatures: seq<Feature> :=
    [AgeDays, TxCount, EthSent, DistinctRecipients, Liquidations, HighLtvBorrows]

  /** The fixed signed weight of each feature; only wallet age lowers the score. */
  function Weight(f: Feature): (w: real)
    ensures w < 0.0 <==> f == AgeDays
    ensures -0.1 <= w <= 0.5
  {
    match f
    case AgeDays => -0.1
    case TxCount => 0.15
    case EthSent => 0.2
    case DistinctRecipients => 0.25
    case Liquidations => 0.5
    case HighLtvBorrows => 0.4
  }

  /** A record's value in one feature column. */
  function Value(r: FeatureRecord, f: Feature): real
  {
    match f
    case AgeDays => r.walletAgeDays as real
    case TxCount => r.txCount as real
    case EthSent => r.avgEthSent
    case DistinctRecipients => r.uniqueRecipients as real
    case Liquidations => r.mockLiquidations as real
    case HighLtvBorrows => r.mockHighLtvBorrows as real
  }

  /** One feature column of the batch, one entry per record, in batch order. */
  function Column(batch: seq<FeatureRecord>, f: Feature): (col: seq<real>)
    ensures |col| == |batch|
  {
    seq(|batch|, i requires 0 <= i < |batch| => Value(batch[i], f))
  }

  // ---------------------------------------------------------------------
  // Column minimum and maximum
  // ---------------------------------------------------------------------

  function Min(s: seq<real>): (m: real)
    requires |s| > 0
    ensures m in s
    ensures forall i :: 0 <= i < |s| ==> m <= s[i]
  {
    if |s| == 1 then s[0]
    else
      var rest := Min(s[1..]);
      assert rest in s;
      if s[0] <= rest then s[0] else rest
  }

  function Max(s: seq<real>): (m: real)
    requires |s| > 0
    ensures m in s
    ensures forall i :: 0 <= i < |s| ==> s[i] <= m
  {
    if |s| == 1 then s[0]
    else
      var rest := Max(s[1..]);
      assert rest in s;
      if s[0] >= rest then s[0] else rest
  }

  /** Minimum and maximum depend only on which values occur, not on their order or multiplicity. */
  lemma MinMaxOfSameValues(s: seq<real>, t: seq<real>)
    requires |s| > 0 && |t| > 0
    requires forall x :: x in s <==> x in t
    ensures Min(s) == Min(t) && Max(s) == Max(t)
  {
    assert Min(s) in t && Min(t) in s;
    assert Max(s) in t && Max(t) in s;
  }

  // ---------------------------------------------------------------------
  // Normalisation
  // ---------------------------------------------------------------------

  /** (v - lo) / (hi - lo) when the column has a positive range, and 0 otherwise. */
  function NormalizedValue(v: real, lo: real, hi: real): (r: real)
    ensures hi - lo <= 0.0 ==> r == 0.0
    ensures lo <= v <= hi ==> 0.0 <= r <= 1.0
  {
    if hi - lo <= 0.0 then 0.0
    else
      assert lo <= v <= hi ==> 0.0 <= (v - lo) / (hi - lo) <= 1.0 by {
        if lo <= v <= hi { RatioWithin(v - lo, hi - lo); }
      }
      (v - lo) / (hi - lo)
  }

  /** A larger value never normalises to a smaller one. */
  lemma NormalizedValueMonotone(v: real, w: real, lo: real, hi: real)
    requires v <= w
    ensures NormalizedValue(v, lo, hi) <= NormalizedValue(w, lo, hi)
  {
    if hi - lo > 0.0 { RatioMonotone(v - lo, w - lo, hi - lo); }
  }

  /** A column normalised against its own minimum and maximum. */
  function NormalizedColumn(col: seq<real>): (n: seq<real>)
    ensures |n| == |col|
  {
    if |col| == 0 then []
    else seq(|col|, i requires 0 <= i < |col| => NormalizedValue(col[i], Min(col), Max(col)))
  }

  /** Every normalised value lies in [0, 1]. */
  lemma NormalizedColumnInUnitRange(col: seq<real>)
    ensures forall i :: 0 <= i < |col| ==> 0.0 <= NormalizedColumn(col)[i] <= 1.0
  {
    if |col| > 0 {
      var lo, hi := Min(col), Max(col);
      forall i | 0 <= i < |col| ensures 0.0 <= NormalizedColumn(col)[i] <= 1.0 {
        assert NormalizedColumn(col)[i] == NormalizedValue(col[i], lo, hi);
      }
    }
  }

  /** Normalisation keeps the order of values. */
  lemma NormalizedColumnMonotone(col: seq<real>)
    ensures forall i, k :: 0 <= i < |col| && 0 <= k < |col| && col[i] <= col[k] ==>
      NormalizedColumn(col)[i] <= NormalizedColumn(col)[k]
  {
    if |col| > 0 {
      var lo, hi := Min(col), Max(col);
      forall i, k | 0 <= i < |col| && 0 <= k < |col| && col[i] <= col[k]
        ensures NormalizedColumn(col)[i] <= NormalizedColumn(col)[k]
      {
        assert NormalizedColumn(col)[i] == NormalizedValue(col[i], lo, hi);
        assert NormalizedColumn(col)[k] == NormalizedValue(col[k], lo, hi);
        NormalizedValueMonotone(col[i], col[k], lo, hi);
      }
    }
  }

  /** A smallest value of the column maps to 0. */
  lemma NormalizedColumnMinimumIsZero(col: seq<real>, i: nat)
    requires i < |col|
    requires forall k :: 0 <= k < |col| ==> col[i] <= col[k]
    ensures NormalizedColumn(col)[i] == 0.0
  {
    assert col[i] == Min(col);
  }

  /** A largest value of the column maps to 1 when some value is smaller than it. */
  lemma NormalizedColumnMaximumIsOne(col: seq<real>, i: nat, k: nat)
    requires i < |col| && k < |col| && col[k] < col[i]
    requires forall k' :: 0 <= k' < |col| ==> col[k'] <= col[i]
    ensures NormalizedColumn(col)[i] == 1.0
  {
    var lo, hi := Min(col), Max(col);
    assert col[i] == hi;
    assert lo <= col[k];
    assert NormalizedColumn(col)[i] == NormalizedValue(hi, lo, hi);
    SelfRatioIsOne(hi - lo);
  }

  /** A column whose values are all equal (any column of a one-wallet batch) normalises to all 0. */
  lemma ConstantColumnNormalizesToZero(col: seq<real>)
    requires forall i, k :: 0 <= i < |col| && 0 <= k < |col| ==> col[i] == col[k]
    ensures forall i :: 0 <= i < |col| ==> NormalizedColumn(col)[i] == 0.0
  {
    if |col| > 0 {
      var lo, hi := Min(col), Max(col);
      var a :| 0 <= a < |col| && col[a] == lo;
      var b :| 0 <= b < |col| && col[b] == hi;
      assert lo == hi;
    }
  }

  /** 0 <= a / d <= 1 for 0 <= a <= d. */
  lemma RatioWithin(a: real, d: real)
    requires d > 0.0 && 0.0 <= a <= d
    ensures 0.0 <= a / d <= 1.0
  {
    assert a / d * d == a;
  }

  /** A positive number divided by itself is 1 (kept apart: inline, this step exhausts the solver). */
  lemma SelfRatioIsOne(d: real)
    requires d > 0.0
    ensures d / d == 1.0
  {
  }

  /** Division by a positive number keeps order. */
  lemma RatioMonotone(a: real, b: real, d: real)
    requires d > 0.0 && a <= b
    ensures a / d <= b / d
  {
    assert a / d * d == a && b / d * d == b;
  }

  /** The normalised table: one normalised column per weighted feature. */
  function NormalizedTable(batch: seq<FeatureRecord>): (table: seq<seq<real>>)
    ensures IsTable(table, |batch|)
  {
    seq(|WeightedFeatures|, j requires 0 <= j < |WeightedFeatures| =>
      NormalizedColumn(Column(batch, WeightedFeatures[j])))
  }

  /** A table of one column per weighted feature, each of n entries. */
  predicate IsTable(table: seq<seq<real>>, n: nat)
  {
    |table| == |WeightedFeatures| && forall j :: 0 <= j < |table| ==> |table[j]| == n
  }

  /**
   * One step of the loop: the column's range, then either the rescaled
   * values or, for a column without range, all 0.
   */
  method NormalizeColumn(col: seq<real>) returns (normalized: seq<real>)
    ensures normalized == NormalizedColumn(col)
  {
    if |col| > 0 && Max(col) - Min(col) > 0.0 {
      var lo, hi := Min(col), Max(col);
      normalized := seq(|col|, i requires 0 <= i < |col| => (col[i] - lo) / (hi - lo));
      assert forall i :: 0 <= i < |col| ==> normalized[i] == NormalizedValue(col[i], lo, hi);
    } else {
      normalized := seq(|col|, i => 0.0);
    }
  }

  /**
   * Normalises a copy of the feature table column by column. Before step j
   * the columns left of j are normalised and the others still hold the
   * batch's raw values.
   */
  method NormalizeFeatures(batch: seq<FeatureRecord>) returns (table: seq<seq<real>>)
    ensures table == NormalizedTable(batch)
    ensures forall j, i :: 0 <= j < |table| && 0 <= i < |batch| ==> 0.0 <= table[j][i] <= 1.0
  {
    table := seq(|WeightedFeatures|, j requires 0 <= j < |WeightedFeatures| =>
      Column(batch, WeightedFeatures[j]));
    for j := 0 to |WeightedFeatures|
      invariant |table| == |WeightedFeatures|
      invariant forall k :: 0 <= k < j ==> table[k] == NormalizedColumn(Column(batch, WeightedFeatures[k]))
      invariant forall k :: j <= k < |WeightedFeatures| ==> table[k] == Column(batch, WeightedFeatures[k])
    {
      var normalized := NormalizeColumn(table[j]);
      table := table[j := normalized];
    }
    forall j | 0 <= j < |table| ensures forall i :: 0 <= i < |batch| ==> 0.0 <= table[j][i] <= 1.0 {
      NormalizedColumnInUnitRange(Column(batch, WeightedFeatures[j]));
    }
  }

  // ---------------------------------------------------------------------
  // Raw score
  // ---------------------------------------------------------------------

  /** Row i of a table: the values of one wallet across the columns. */
  function Row(table: seq<seq<real>>, i: nat): (row: seq<real>)
    requires forall j :: 0 <= j < |table| ==> i < |table[j]|
    ensures |row| == |table|
  {
    seq(|table|, j requires 0 <= j < |table| => table[j][i])
  }

  /** The weighted sum of a row, with row[j] weighted by Weight(fs[j]). */
  function WeightedSum(row: seq<real>, fs: seq<Feature>): real
    requires |row| == |fs|
  {
    if |row| == 0 then 0.0 else row[0] * Weight(fs[0]) + WeightedSum(row[1..], fs[1..])
  }

  /** The signed weighted sum of every wallet's normalised row. */
  function RawScores(table: seq<seq<real>>, n: nat): (raw: seq<real>)
    requires IsTable(table, n)
    ensures |raw| == n
  {
    seq(n, i requires 0 <= i < n => WeightedSum(Row(table, i), WeightedFeatures))
  }

  /** The sum of the negative weights (the least a row in [0, 1] can reach). */
  function NegativeWeights(fs: seq<Feature>): real
  {
    if |fs| == 0 then 0.0
    else (if Weight(fs[0]) < 0.0 then Weight(fs[0]) else 0.0) + NegativeWeights(fs[1..])
  }

  /** The sum of the positive weights (the most a row in [0, 1] can reach). */
  function PositiveWeights(fs: seq<Feature>): real
  {
    if |fs| == 0 then 0.0
    else (if Weight(fs[0]) > 0.0 then Weight(fs[0]) else 0.0) + PositiveWeights(fs[1..])
  }

  /** The negative weights sum to -0.1 and the positive ones to 1.5. */
  lemma WeightTotals()
    ensures NegativeWeights(WeightedFeatures) == -0.1
    ensures PositiveWeights(WeightedFeatures) == 1.5
  {
    var fs := WeightedFeatures;
    assert NegativeWeights(fs[5..]) == 0.0 && PositiveWeights(fs[5..]) == 0.4;
    assert NegativeWeights(fs[4..]) == 0.0 && PositiveWeights(fs[4..]) == 0.9;
    assert NegativeWeights(fs[3..]) == 0.0 && PositiveWeights(fs[3..]) == 1.15;
    assert NegativeWeights(fs[2..]) == 0.0 && PositiveWeights(fs[2..]) == 1.35;
    assert NegativeWeights(fs[1..]) == 0.0 && PositiveWeights(fs[1..]) == 1.5;
  }

  lemma {:induction false} WeightedSumBounds(row: seq<real>, fs: seq<Feature>)
    requires |row| == |fs|
    requires forall j :: 0 <= j < |row| ==> 0.0 <= row[j] <= 1.0
    ensures NegativeWeights(fs) <= WeightedSum(row, fs) <= PositiveWeights(fs)
  {
    if |row| > 0 {
      WeightedSumBounds(row[1..], fs[1..]);
      var x, w := row[0], Weight(fs[0]);
      if w >= 0.0 {
        assert 0.0 <= x * w <= 1.0 * w;
      } else {
        assert 1.0 * w <= x * w <= 0.0;
      }
    }
  }

  /**
   * Every raw score of a normalised table lies in [-0.1, 1.5]: the sum of
   * the negative weights and the sum of the positive weights.
   */
  lemma RawScoresBounds(batch: seq<FeatureRecord>)
    ensures forall i :: 0 <= i < |batch| ==>
      -0.1 <= RawScores(NormalizedTable(batch), |batch|)[i] <= 1.5
  {
    var table := NormalizedTable(batch);
    WeightTotals();
    forall i | 0 <= i < |batch|
      ensures -0.1 <= RawScores(table, |batch|)[i] <= 1.5
    {
      var row := Row(table, i);
      forall j | 0 <= j < |row| ensures 0.0 <= row[j] <= 1.0 {
        NormalizedColumnInUnitRange(Column(batch, WeightedFeatures[j]));
      }
      WeightedSumBounds(row, WeightedFeatures);
    }
  }

  // ---------------------------------------------------------------------
  // Rescaling to [0, 1000]
  // ---------------------------------------------------------------------

  /** Conversion of a real to an integer by truncation toward zero. */
  function Truncate(x: real): (r: int)
    ensures x >= 0.0 ==> r as real <= x < r as real + 1.0
    ensures x <= 0.0 ==> r as real - 1.0 < x <= r as real
  {
    if x >= 0.0 then x.Floor else -((-x).Floor)
  }

  /** 1000 * (v - lo) / (hi - lo), truncated, for a batch with positive spread. */
  function ScaledScore(v: real, lo: real, hi: real): int
    requires hi - lo > 0.0
  {
    Truncate(1000.0 * (v - lo) / (hi - lo))
  }

  /**
   * The final scores, with an explicit constant 0 for a batch whose raw
   * scores are all equal.
   */
  function Rescale(raw: seq<real>): (scores: seq<int>)
    ensures |scores| == |raw|
  {
    if |raw| == 0 then []
    else
      var lo, hi := Min(raw), Max(raw);
      if hi - lo > 0.0 then seq(|raw|, i requires 0 <= i < |raw| => ScaledScore(raw[i], lo, hi))
      else seq(|raw|, i => 0)
  }

  /** Every final score lies in [0, 1000]. */
  lemma RescaleInRange(raw: seq<real>)
    ensures forall i :: 0 <= i < |raw| ==> 0 <= Rescale(raw)[i] <= 1000
  {
    if |raw| > 0 {
      var lo, hi := Min(raw), Max(raw);
      forall i | 0 <= i < |raw| ensures 0 <= Rescale(raw)[i] <= 1000 {
        if hi - lo > 0.0 { ScaledScoreWithin(raw[i], lo, hi); }
      }
    }
  }

  /** A higher raw score never gets a lower final score. */
  lemma RescaleMonotone(raw: seq<real>)
    ensures forall i, k :: 0 <= i < |raw| && 0 <= k < |raw| && raw[i] <= raw[k] ==>
      Rescale(raw)[i] <= Rescale(raw)[k]
  {
    if |raw| > 0 {
      var lo, hi := Min(raw), Max(raw);
      forall i, k | 0 <= i < |raw| && 0 <= k < |raw| && raw[i] <= raw[k]
        ensures Rescale(raw)[i] <= Rescale(raw)[k]
      {
        if hi - lo > 0.0 { ScaledScoreMonotone(raw[i], raw[k], lo, hi); }
      }
    }
  }

  /** A lowest raw score gets exactly 0. */
  lemma RescaleMinimumIsZero(raw: seq<real>, i: nat)
    requires i < |raw|
    requires forall k :: 0 <= k < |raw| ==> raw[i] <= raw[k]
    ensures Rescale(raw)[i] == 0
  {
    assert raw[i] == Min(raw);
  }

  /** A highest raw score gets exactly 1000 when some raw score is lower than it. */
  lemma RescaleMaximumIsThousand(raw: seq<real>, i: nat, k: nat)
    requires i < |raw| && k < |raw| && raw[k] < raw[i]
    requires forall k' :: 0 <= k' < |raw| ==> raw[k'] <= raw[i]
    ensures Rescale(raw)[i] == 1000
  {
    var lo, hi := Min(raw), Max(raw);
    assert raw[i] == hi;
    assert lo <= raw[k];
    ScaledScoreAtMax(lo, hi);
  }

  /** Raw scores that are all equal (any one-wallet batch) rescale to the constant 0. */
  lemma ConstantRawScoresRescaleToZero(raw: seq<real>)
    requires forall i, k :: 0 <= i < |raw| && 0 <= k < |raw| ==> raw[i] == raw[k]
    ensures forall i :: 0 <= i < |raw| ==> Rescale(raw)[i] == 0
  {
    if |raw| > 0 {
      var lo, hi := Min(raw), Max(raw);
      var a :| 0 <= a < |raw| && raw[a] == lo;
      var b :| 0 <= b < |raw| && raw[b] == hi;
      assert lo == hi;
    }
  }

  lemma ScaledScoreWithin(v: real, lo: real, hi: real)
    requires lo <= v <= hi && hi - lo > 0.0
    ensures 0 <= ScaledScore(v, lo, hi) <= 1000
  {
    RatioWithin(1000.0 * (v - lo), 1000.0 * (hi - lo));
    assert 1000.0 * (v - lo) / (hi - lo) == 1000.0 * ((1000.0 * (v - lo)) / (1000.0 * (hi - lo)));
  }

  lemma ScaledScoreMonotone(v: real, w: real, lo: real, hi: real)
    requires v <= w && hi - lo > 0.0
    ensures ScaledScore(v, lo, hi) <= ScaledScore(w, lo, hi)
  {
    RatioMonotone(1000.0 * (v - lo), 1000.0 * (w - lo), hi - lo);
  }

  lemma ScaledScoreAtMax(lo: real, hi: real)
    requires hi - lo > 0.0
    ensures ScaledScore(hi, lo, hi) == 1000
  {
    assert 1000.0 * (hi - lo) / (hi - lo) == 1000.0;
  }

  // ---------------------------------------------------------------------
  // Rescaling as the source writes it
  // ---------------------------------------------------------------------

  /** The outcome of converting the rescaled column to integers. */
  datatype Cast = Cast(scores: seq<int>) | NonFiniteCastError

  /**
   * The rescale step without a guard: when the raw scores of a non-empty
   * batch are all equal the division is 0 / 0, every value is NaN, and the
   * conversion to integers refuses non-finite values.
   */
  function RescaleAsWritten(raw: seq<real>): (c: Cast)
    ensures |raw| == 0 ==> c == Cast([])
    ensures |raw| == 1 ==> c == NonFiniteCastError
    ensures c.Cast? ==> |c.scores| == |raw|
  {
    if |raw| == 0 then Cast([])
    else
      var lo, hi := Min(raw), Max(raw);
      if hi - lo == 0.0 then NonFiniteCastError
      else Cast(seq(|raw|, i requires 0 <= i < |raw| => Truncate(1000.0 * (raw[i] - lo) / (hi - lo))))
  }

  /** Where the unguarded rescale succeeds, it agrees with the guarded one. */
  lemma RescaleAsWrittenAgrees(raw: seq<real>)
    ensures RescaleAsWritten(raw).Cast? ==> RescaleAsWritten(raw).scores == Rescale(raw)
    ensures RescaleAsWritten(raw).NonFiniteCastError? <==>
      |raw| > 0 && forall i, k :: 0 <= i < |raw| && 0 <= k < |raw| ==> raw[i] == raw[k]
  {
    if |raw| > 0 {
      var lo, hi := Min(raw), Max(raw);
      if hi - lo != 0.0 {
        assert hi - lo > 0.0;
        var k :| 0 <= k < |raw| && raw[k] == lo;
        var m :| 0 <= m < |raw| && raw[m] == hi;
        assert raw[k] != raw[m];
      }
    }
  }

  /** A single-wallet batch makes the unguarded rescale fail, whatever the wallet's features. */
  lemma SingleWalletBatchFailsAsWritten(r: FeatureRecord)
    ensures RescaleAsWritten(RawScores(NormalizedTable([r]), 1)).NonFiniteCastError?
  {
    RescaleAsWrittenAgrees(RawScores(NormalizedTable([r]), 1));
  }

  // ---------------------------------------------------------------------
  // The whole scoring pass
  // ---------------------------------------------------------------------

  /** The score of every wallet of the batch, in batch order. */
  function RiskScores(batch: seq<FeatureRecord>): (scores: seq<int>)
    ensures |scores| == |batch|
    ensures forall i :: 0 <= i < |batch| ==> 0 <= scores[i] <= 1000
  {
    var raw := RawScores(NormalizedTable(batch), |batch|);
    RescaleInRange(raw);
    Rescale(raw)
  }

  /** Normalises the batch's features, sums them with the weights and rescales the sums. */
  method CalculateRiskScores(batch: seq<FeatureRecord>) returns (scores: seq<int>)
    ensures scores == RiskScores(batch)
    ensures |scores| == |batch|
    ensures forall i :: 0 <= i < |batch| ==> 0 <= scores[i] <= 1000
  {
    var table := NormalizeFeatures(batch);
    var raw := RawScores(table, |batch|);
    scores := Rescale(raw);
  }

  /** A batch of one wallet normalises every column to 0 and scores 0. */
  lemma SingleWalletScoresZero(r: FeatureRecord)
    ensures forall j :: 0 <= j < |WeightedFeatures| ==> NormalizedTable([r])[j] == [0.0]
    ensures RiskScores([r]) == [0]
  {
    forall j | 0 <= j < |WeightedFeatures| ensures NormalizedTable([r])[j] == [0.0] {
      ConstantColumnNormalizesToZero(Column([r], WeightedFeatures[j]));
    }
    ConstantRawScoresRescaleToZero(RawScores(NormalizedTable([r]), 1));
  }

  // ---------------------------------------------------------------------
  // Independence of batch order
  // ---------------------------------------------------------------------

  /** Every value of a column of b1 occurs in the same column of b2 when b2 holds b1's records. */
  lemma ColumnValuesContained(b1: seq<FeatureRecord>, b2: seq<FeatureRecord>, f: Feature)
    requires multiset(b1) <= multiset(b2)
    ensures forall x :: x in Column(b1, f) ==> x in Column(b2, f)
  {
    forall x | x in Column(b1, f) ensures x in Column(b2, f) {
      var a :| 0 <= a < |b1| && Column(b1, f)[a] == x;
      assert b1[a] in multiset(b2);
      var c :| 0 <= c < |b2| && b2[c] == b1[a];
      assert Column(b2, f)[c] == x;
    }
  }

  /** The same record in two orderings of one batch has the same normalised row. */
  lemma SameRecordSameRow(b1: seq<FeatureRecord>, b2: seq<FeatureRecord>, i: nat, k: nat)
    requires multiset(b1) == multiset(b2)
    requires i < |b1| && k < |b2| && b1[i] == b2[k]
    ensures Row(NormalizedTable(b1), i) == Row(NormalizedTable(b2), k)
  {
    var t1, t2 := NormalizedTable(b1), NormalizedTable(b2);
    forall j | 0 <= j < |WeightedFeatures| ensures t1[j][i] == t2[j][k] {
      var f := WeightedFeatures[j];
      var c1, c2 := Column(b1, f), Column(b2, f);
      ColumnValuesContained(b1, b2, f);
      ColumnValuesContained(b2, b1, f);
      MinMaxOfSameValues(c1, c2);
    }
  }

  /** Every raw score of b1 is the raw score of some record of b2 when both hold the same records. */
  lemma RawScoreValuesContained(b1: seq<FeatureRecord>, b2: seq<FeatureRecord>)
    requires multiset(b1) == multiset(b2)
    ensures forall x :: x in RawScores(NormalizedTable(b1), |b1|) ==> x in RawScores(NormalizedTable(b2), |b2|)
  {
    var raw1 := RawScores(NormalizedTable(b1), |b1|);
    var raw2 := RawScores(NormalizedTable(b2), |b2|);
    forall x | x in raw1 ensures x in raw2 {
      var a :| 0 <= a < |raw1| && raw1[a] == x;
      assert b1[a] in multiset(b2);
      var c :| 0 <= c < |b2| && b2[c] == b1[a];
      SameRecordSameRow(b1, b2, a, c);
      assert raw2[c] == x;
    }
  }

  /**
   * Scoring does not depend on the order of the batch: in any reordering of
   * a batch (two batches holding the same records), the same record gets
   * the same score, so permuting the batch permutes the scores alike.
   */
  lemma ScoresIndependentOfBatchOrder(b1: seq<FeatureRecord>, b2: seq<FeatureRecord>, i: nat, k: nat)
    requires multiset(b1) == multiset(b2)
    requires i < |b1| && k < |b2| && b1[i] == b2[k]
    ensures RiskScores(b1)[i] == RiskScores(b2)[k]
  {
    var raw1 := RawScores(NormalizedTable(b1), |b1|);
    var raw2 := RawScores(NormalizedTable(b2), |b2|);
    RawScoreValuesContained(b1, b2);
    RawScoreValuesContained(b2, b1);
    MinMaxOfSameValues(raw1, raw2);
    SameRecordSameRow(b1, b2, i, k);
    assert raw1[i] == raw2[k];
  }

  // ---------------------------------------------------------------------
  // A worked batch of two wallets
  // ---------------------------------------------------------------------

  lemma {:induction false} WeightedSumOfZeros(row: seq<real>, fs: seq<Feature>)
    requires |row| == |fs| && forall j :: 0 <= j < |row| ==> row[j] == 0.0
    ensures WeightedSum(row, fs) == 0.0
  {
    if |row| > 0 { WeightedSumOfZeros(row[1..], fs[1..]); }
  }

  lemma {:induction false} WeightedSumOfOnes(row: seq<real>, fs: seq<Feature>)
    requires |row| == |fs| && forall j :: 0 <= j < |row| ==> row[j] == 1.0
    ensures WeightedSum(row, fs) == NegativeWeights(fs) + PositiveWeights(fs)
  {
    if |row| > 0 { WeightedSumOfOnes(row[1..], fs[1..]); }
  }

  /**
   * In a batch of a wallet without activity and a wallet that is positive
   * on every feature, every column normalises to 0 for the first and to 1
   * for the second.
   */
  lemma TwoWalletTable(a: string, r: FeatureRecord)
    requires forall f :: Value(r, f) > 0.0
    ensures var table := NormalizedTable([ZeroRecord(a), r]);
      forall j :: 0 <= j < |table| ==> table[j][0] == 0.0 && table[j][1] == 1.0
  {
    var batch := [ZeroRecord(a), r];
    var table := NormalizedTable(batch);
    forall j | 0 <= j < |table| ensures table[j][0] == 0.0 && table[j][1] == 1.0 {
      var col := Column(batch, WeightedFeatures[j]);
      assert col[0] == 0.0 && col[1] == Value(r, WeightedFeatures[j]) > 0.0;
      NormalizedColumnMinimumIsZero(col, 0);
      NormalizedColumnMaximumIsOne(col, 1, 0);
    }
  }

  /** Their raw scores are 0 and the total of all weights, 1.4. */
  lemma TwoWalletRawScores(a: string, r: FeatureRecord)
    requires forall f :: Value(r, f) > 0.0
    ensures RawScores(NormalizedTable([ZeroRecord(a), r]), 2) == [0.0, 1.4]
  {
    var table := NormalizedTable([ZeroRecord(a), r]);
    TwoWalletTable(a, r);
    WeightedSumOfZeros(Row(table, 0), WeightedFeatures);
    WeightedSumOfOnes(Row(table, 1), WeightedFeatures);
    WeightTotals();
  }

  /**
   * A wallet without activity scored against a wallet that is positive on
   * every feature: the raw scores are 0 and 1.4, and the final scores are
   * exactly 0 and 1000.
   */
  lemma TwoWalletExample(a: string, r: FeatureRecord)
    requires forall f :: Value(r, f) > 0.0
    ensures RiskScores([ZeroRecord(a), r]) == [0, 1000]
  {
    var raw := RawScores(NormalizedTable([ZeroRecord(a), r]), 2);
    TwoWalletRawScores(a, r);
    RescaleMinimumIsZero(raw, 0);
    RescaleMaximumIsThousand(raw, 1, 0);
  }

  /** One active wallet: 100 days old, 50 transactions, 2 ether on average, 10 recipients, both flags set. */
  function ActiveRecord(address: string): (r: FeatureRecord)
    ensures forall f :: Value(r, f) > 0.0
  {
    FeatureRecord(address, 100, 50, 2.0, 10, 1, 1)
  }

  /** The inactive wallet scores 0 and the active one 1000. */
  lemma ActiveWalletExample(a: string, b: string)
    ensures RiskScores([ZeroRecord(a), ActiveRecord(b)]) == [0, 1000]
  {
    TwoWalletExample(a, ActiveRecord(b));
  }
}
